=== FILE: README.md ===
# Spots store of HauntedBnB, in Dafny

This project models the client-side spots store of the HauntedBnB booking
application (`frontend/src/store/spots.js`). The store is a normalised cache,
a map from spot id to spot. It is updated by one pure reducer, `spotsReducer`,
from action objects built by five action creators. The model has four layers:

- `Spots` (`spots.dfy`): the entities. `Image` is `{ url, preview }`. `Spot` is an
  id, the listing columns the reducer never reads, and an optional image list.
  `ImagePayload` is the body of a created image. `State` is `map<int, Spot>`.
- `Reducer` (`reducer.dfy`): the five transitions over a closed `Action` type,
  one constructor per creator: `UpsertAll` (load a batch), `Upsert` (load one
  spot or a created one), `Attach` (append an image) and `Delete` (remove a key),
  combined in `Reduce`. Lemmas state last-write-wins, idempotence, ordering of
  image appends, the frame of each action and which actions can shrink the map.
- `Actions` (`actions.dfy`): the JavaScript action objects, with a `type` tag
  and named fields. The five creators are here, along with `Decode` (the
  reducer's `switch` and the field it reads per tag) and `SpotsReducer` (the
  exported reducer, including `state = initialState` and the `default` case).
  Each creator's contract is a round trip: the reducer reads back exactly the
  action the creator built.
- `Thunks` (`thunks.dfy`): the five asynchronous thunks with the network taken
  out. Each one takes the outcome of its request as a parameter. It returns the
  action objects it dispatches and the value its promise resolves to. Lemmas
  state that a failed request dispatches nothing and leaves the store unchanged.
  They also state that a successful request applies exactly the intended
  transition.

Two behaviours of the code are easy to miss, and the model keeps both:

- An image is attached only when `spotId` is truthy, not merely present in the
  map. A spot stored under id 0 can therefore never receive an image.
- The thunk `createSpotImage` dispatches the image record the server returns,
  not the payload it sent. Whether an image is attached therefore depends on
  that record carrying a `spotId`.

## Model

| member | source | states |
|---|---|---|
| Reducer.Upsert | frontend/src/store/spots.js:173-183 | loading one spot (details or a newly created one) adds its id to the keys, stores it under that id, and keeps every other key's spot |
| Reducer.LastIndexOf | frontend/src/store/spots.js:166-169 | for an id that occurs in a batch, gives a position holding that id after which no spot has it: the spot a left-to-right forEach writes last |
| Reducer.UpsertAll | frontend/src/store/spots.js:164-170 | loading a batch gives keys = old keys plus the listed ids; an unlisted key keeps its spot; a listed id holds the last spot in the list with that id (forEach order, last write wins) |
| Reducer.Attach | frontend/src/store/spots.js:185-191 | with a truthy spotId naming a stored spot, that spot keeps its id and columns and its images become the old images (empty if absent) followed by `{url, preview}`; other keys are unchanged; otherwise the state is returned equal |
| Reducer.Delete | frontend/src/store/spots.js:194-198 | removing gives keys = old keys minus the id, every remaining spot unchanged, and the same state when the id is absent |
| Reducer.Reduce | frontend/src/store/spots.js:162-198 | every recognised action changes only the keys it touches; only remove can shrink the key set, and it removes exactly its id; every other action yields a superset of the old keys |
| Reducer.LoadAllValues | frontend/src/store/spots.js:164-170 | after a batch load, a listed id maps to the spot at the last position with that id, and an unlisted key is present and valued exactly as before |
| Reducer.LoadAllIdempotent | frontend/src/store/spots.js:164-170 | loading the same batch twice gives the same state as loading it once |
| Reducer.LoadAllAppend | frontend/src/store/spots.js:166-169 | loading `xs ++ ys` equals loading `xs` then `ys`: the batch is a left-to-right sequence of single upserts |
| Reducer.LoadAllSingle | frontend/src/store/spots.js:164-177 | a batch of one spot gives the same state as loading that spot's details |
| Reducer.UpsertIdempotent | frontend/src/store/spots.js:173-183 | loading details and submitting a spot produce the same state, and applying either twice equals applying it once |
| Reducer.AttachOrder | frontend/src/store/spots.js:185-191 | attaching image A and then image B to a stored spot with a nonzero id leaves its images as the old images followed by A, then B |
| Reducer.AttachToZeroIsIdentity | frontend/src/store/spots.js:188-191 | an image whose spotId is 0 (falsy) leaves the state unchanged even if spot 0 is stored |
| Reducer.ReduceKeepsKeyedById | frontend/src/store/spots.js:164-198 | if every spot is stored under its own id before an action, the same holds after it |
| Reducer.LoadThenRemoveScenario | frontend/src/store/spots.js:164-198 | loading spots 1 and 2 into the empty store and then removing 1 leaves exactly key 2, holding spot 2 |
| Actions.LoadSpots | frontend/src/store/spots.js:10-15 | builds an object tagged LOAD_SPOTS that the reducer decodes back to a batch load of exactly the given list |
| Actions.LoadSpotDetails | frontend/src/store/spots.js:17-22 | builds an object tagged LOAD_SPOT_DETAILS that the reducer decodes back to loading exactly the given spot |
| Actions.LoadNewSpot | frontend/src/store/spots.js:24-29 | builds an object tagged SUBMIT_SPOT whose `payload` the reducer decodes back to creating exactly the given spot |
| Actions.LoadSpotImage | frontend/src/store/spots.js:31-36 | builds an object tagged SUBMIT_SPOT_IMAGE whose `payload` the reducer decodes back to attaching exactly the given image |
| Actions.RemoveSpot | frontend/src/store/spots.js:38-43 | builds an object tagged REMOVE_SPOT whose `payload` the reducer decodes back to removing exactly the given id |
| Actions.Decode | frontend/src/store/spots.js:162-201 | an unrecognised tag performs no transition; REMOVE_SPOT never throws; LOAD_SPOTS, LOAD_SPOT_DETAILS and SUBMIT_SPOT throw exactly when the field they read is missing or of the wrong kind; SUBMIT_SPOT_IMAGE throws exactly when it has no payload, and a payload that is not an image record performs nothing; a decoded action has the object's tag and is exactly the data in the field its creator writes; conversely, any object with a recognised tag and that tag's field holding well-formed data decodes to that action, whatever other properties it has |
| Actions.SpotsReducer | frontend/src/store/spots.js:159-203 | an unrecognised tag returns the state (the empty initial state when none is given) unchanged; it faults exactly when decoding the object throws, which only a recognised tag other than REMOVE_SPOT can do; only REMOVE_SPOT can shrink the key set; no action adds a key other than the ids of the spots it loads |
| Actions.CreatorRoundTrip | frontend/src/store/spots.js:10-43 | for every typed action, its creator builds an object carrying the action's tag and exactly one field with its data; that object decodes back to the action, and reducing it performs the action's transition |
| Actions.ReduceCarried | frontend/src/store/spots.js:162-198 | any object carrying a recognised tag and that tag's field with well-formed data, whatever other properties it has, is reduced by exactly that action's transition |
| Actions.InitialState | frontend/src/store/spots.js:159-161 | with no state yet, an action of another slice yields the empty store |
| Actions.RemoveWithoutPayload | frontend/src/store/spots.js:194-198 | a REMOVE_SPOT object without a payload returns the state unchanged and does not throw |
| Thunks.GetAllSpots | frontend/src/store/spots.js:45-65 | dispatches one action on success and none otherwise; resolves to the list on success, to undefined on a non-ok status, and to the error when an exception is caught |
| Thunks.GetASpot | frontend/src/store/spots.js:67-86 | dispatches one action on success and none otherwise; resolves to the spot on success and to the error body or exception otherwise |
| Thunks.CreateSpot | frontend/src/store/spots.js:88-111 | dispatches one action on success and none otherwise; resolves to the created spot on success and to the error otherwise |
| Thunks.CreateSpotImage | frontend/src/store/spots.js:113-138 | a missing argument rejects the promise before any request and dispatches nothing; otherwise one action is dispatched on success and none on failure, and the promise resolves to the server's image record on success and to the error otherwise |
| Thunks.DeleteSpot | frontend/src/store/spots.js:140-157 | dispatches one action on success and none otherwise; resolves to undefined unless an exception was caught |
| Thunks.CommitEncoded | frontend/src/store/spots.js:10-43 | dispatching the creators' objects for a sequence of typed actions, in order, never faults and gives the state of reducing those actions in order |
| Thunks.GetAllSpotsEffect | frontend/src/store/spots.js:45-65 | a failed list request leaves the store unchanged; a successful one batch-loads the returned list |
| Thunks.GetASpotEffect | frontend/src/store/spots.js:67-86 | a failed detail request leaves the store unchanged; a successful one stores the fetched spot under its id |
| Thunks.CreateSpotEffect | frontend/src/store/spots.js:88-111 | a failed create leaves the store unchanged; a successful one stores the created spot under its id |
| Thunks.CreateSpotImageEffect | frontend/src/store/spots.js:113-138 | a missing argument or a failed upload leaves the store unchanged; a successful upload attaches the returned record, which is a no-op unless that record has a truthy spotId naming a stored spot |
| Thunks.DeleteSpotEffect | frontend/src/store/spots.js:140-157 | a failed delete leaves the store unchanged; a successful one removes exactly the requested id |

## Left out

- `backend/routes/api/session.js` (login, logout, restore) is not part of this model. It is routing, validation middleware, an ORM query, `bcrypt` and cookie handling, and all of these are foreign calls.
- Reducer.Attach: does not model the aliasing at line 189. The JavaScript copy is shallow, so assigning `images` also mutates the spot object still held by the previous state. The model builds a new spot value and leaves the previous state untouched.
- Actions.SpotsReducer: does not model object identity. The `default` branch returns the very same object while the other branches return a fresh copy. With value semantics, both give an equal state.
- Spot ids are integers. JavaScript's coercion of object keys to strings is not modelled. Among the falsy `spotId` values, only `undefined` (modelled as `None`) and `0` are modelled.
- Actions.Decode: a missing field makes the code throw a `TypeError` for LOAD_SPOTS, LOAD_SPOT_DETAILS, SUBMIT_SPOT and SUBMIT_SPOT_IMAGE, and the model fails the same way. A REMOVE_SPOT with no payload throws nothing and changes nothing in both (`Actions.RemoveWithoutPayload`). A LOAD_SPOTS, LOAD_SPOT_DETAILS or SUBMIT_SPOT field of the wrong kind is also modelled as a `TypeError`. For the latter two, JavaScript instead stores the value under the key `"undefined"`, which an integer-keyed map cannot hold.
- Thunks: request construction is not modelled (URL, HTTP method, headers, JSON body, CSRF token). Neither is `console.error` logging. Error bodies are opaque strings.
- Thunks: an `Ok` response body is always a well-formed list or spot, or a well-formed image record. A successful response with a malformed body is not modelled. Examples are a list body without `Spots` or a `null` detail body. In the code, the reducer throws a `TypeError` inside `dispatch` (line 166 or 175), the thunk's `catch` resolves the promise to that error, and nothing is stored.
- Thunks.GetAllSpots: the response body `{ Spots: [...] }` is modelled by its `Spots` list alone.
- Concurrency between in-flight thunks is not modelled. The store applies dispatches in whatever order they arrive, which `Reducer.ReduceAll` and `Thunks.Commit` represent as a sequence.

=== FILE: actions.dfy ===
/** The action objects of the spots slice as the store sees them: a `type` tag
    plus named fields. The action creators build them; the reducer switches on
    the tag and reads back the field the creator wrote. */
module Actions {
  import opened Wrappers
  import opened Spots
  import opened Reducer

  const LoadSpotsTag: string := "SPOTS/load_spots"
  const LoadSpotDetailsTag: string := "SPOTS/load_spot_detail"
  const SubmitSpotTag: string := "SPOTS/submit_spot"
  const SubmitSpotImageTag: string := "SPOTS/submit_spot_image"
  const RemoveSpotTag: string := "SPOTS/remove_spot"

  /** The tags the spots reducer recognises. */
  const Tags: set<string> :=
    {LoadSpotsTag, LoadSpotDetailsTag, SubmitSpotTag, SubmitSpotImageTag, RemoveSpotTag}

  /** The kinds of value an action of this slice carries in a field. */
  datatype Value =
    | SpotList(spots: seq<Spot>)
    | SpotRecord(spot: Spot)
    | ImageRecord(image: ImagePayload)
    | SpotKey(id: int)

  /** A dispatched action object: its `type` tag and its other properties. Any
      part of the application may dispatch one, so the tag is an arbitrary string. */
  datatype ActionObject = ActionObject(tag: string, fields: map<string, Value>)

  /** The reducer read a property of a missing or ill-kinded field, which makes
      JavaScript throw a `TypeError`. */
  datatype Fault = TypeError(field: string)

  /** `loadSpots(spots)`: `{ type: LOAD_SPOTS, spots }`. */
  function LoadSpots(spots: seq<Spot>): (o: ActionObject)
    ensures o.tag == LoadSpotsTag
    ensures Decode(o) == Success(Some(LoadAll(spots)))
  {
    ActionObject(LoadSpotsTag, map["spots" := SpotList(spots)])
  }

  /** `loadSpotDetails(spot)`: `{ type: LOAD_SPOT_DETAILS, spot }`. */
  function LoadSpotDetails(spot: Spot): (o: ActionObject)
    ensures o.tag == LoadSpotDetailsTag
    ensures Decode(o) == Success(Some(LoadOne(spot)))
  {
    ActionObject(LoadSpotDetailsTag, map["spot" := SpotRecord(spot)])
  }

  /** `loadNewSpot(spot)`: `{ type: SUBMIT_SPOT, payload: spot }`. */
  function LoadNewSpot(spot: Spot): (o: ActionObject)
    ensures o.tag == SubmitSpotTag
    ensures Decode(o) == Success(Some(Create(spot)))
  {
    ActionObject(SubmitSpotTag, map["payload" := SpotRecord(spot)])
  }

  /** `loadSpotImage(spotImage)`: `{ type: SUBMIT_SPOT_IMAGE, payload: spotImage }`. */
  function LoadSpotImage(image: ImagePayload): (o: ActionObject)
    ensures o.tag == SubmitSpotImageTag
    ensures Decode(o) == Success(Some(AttachImage(image)))
  {
    ActionObject(SubmitSpotImageTag, map["payload" := ImageRecord(image)])
  }

  /** `removeSpot(spotId)`: `{ type: REMOVE_SPOT, payload: spotId }`. */
  function RemoveSpot(id: int): (o: ActionObject)
    ensures o.tag == RemoveSpotTag
    ensures Decode(o) == Success(Some(Remove(id)))
  {
    ActionObject(RemoveSpotTag, map["payload" := SpotKey(id)])
  }

  /** The tag of the creator that builds a typed action. */
  function TagOf(a: Action): string {
    match a
    case LoadAll(_) => LoadSpotsTag
    case LoadOne(_) => LoadSpotDetailsTag
    case Create(_) => SubmitSpotTag
    case AttachImage(_) => SubmitSpotImageTag
    case Remove(_) => RemoveSpotTag
  }

  /** The one field, name and value, in which that creator carries the action's data. */
  function Carried(a: Action): (string, Value) {
    match a
    case LoadAll(xs) => ("spots", SpotList(xs))
    case LoadOne(sp) => ("spot", SpotRecord(sp))
    case Create(sp) => ("payload", SpotRecord(sp))
    case AttachImage(p) => ("payload", ImageRecord(p))
    case Remove(id) => ("payload", SpotKey(id))
  }

  /** The action object the matching creator builds for a typed action. */
  function Encode(a: Action): ActionObject {
    match a
    case LoadAll(xs) => LoadSpots(xs)
    case LoadOne(sp) => LoadSpotDetails(sp)
    case Create(sp) => LoadNewSpot(sp)
    case AttachImage(p) => LoadSpotImage(p)
    case Remove(id) => RemoveSpot(id)
  }

  function Field(o: ActionObject, name: string): Option<Value> {
    if name in o.fields then Some(o.fields[name]) else None
  }

  /** What the reducer's `switch` makes of an action object: the transition it
      performs (`Some`), none at all (`None`: an unknown tag; a `removeSpot`
      payload that is not a spot id and so deletes no key; a SUBMIT_SPOT_IMAGE
      payload that is not an image record, so it has no `spotId`, which is
      falsy), or the `TypeError` raised by reading a property of a field that
      is missing or of the wrong kind. */
  function Decode(o: ActionObject): (r: Result<Option<Action>, Fault>)
    ensures o.tag !in Tags ==> r == Success(None)
    ensures o.tag == RemoveSpotTag ==> r.Success?
    ensures r.Failure? ==> o.tag in Tags - {RemoveSpotTag}
    ensures r.Success? && r.value.Some? ==>
              && TagOf(r.value.value) == o.tag
              && Carried(r.value.value).0 in o.fields
              && o.fields[Carried(r.value.value).0] == Carried(r.value.value).1
    ensures forall a ::
              (o.tag == TagOf(a) && Carried(a).0 in o.fields
               && o.fields[Carried(a).0] == Carried(a).1)
              ==> r == Success(Some(a))
    // When it throws: the field the tag reads is missing or of the wrong kind.
    ensures o.tag == LoadSpotsTag ==>
              (r.Failure? <==> !("spots" in o.fields && o.fields["spots"].SpotList?))
    ensures o.tag == LoadSpotDetailsTag ==>
              (r.Failure? <==> !("spot" in o.fields && o.fields["spot"].SpotRecord?))
    ensures o.tag == SubmitSpotTag ==>
              (r.Failure? <==> !("payload" in o.fields && o.fields["payload"].SpotRecord?))
    ensures o.tag == SubmitSpotImageTag ==> (r.Failure? <==> "payload" !in o.fields)
    ensures (o.tag == SubmitSpotImageTag && "payload" in o.fields
             && !o.fields["payload"].ImageRecord?) ==> r == Success(None)
  {
    if o.tag == LoadSpotsTag then
      match Field(o, "spots")
      case Some(SpotList(xs)) => Success(Some(LoadAll(xs)))
      case _ => Failure(TypeError("spots"))
    else if o.tag == LoadSpotDetailsTag then
      match Field(o, "spot")
      case Some(SpotRecord(sp)) => Success(Some(LoadOne(sp)))
      case _ => Failure(TypeError("spot"))
    else if o.tag == SubmitSpotTag then
      match Field(o, "payload")
      case Some(SpotRecord(sp)) => Success(Some(Create(sp)))
      case _ => Failure(TypeError("payload"))
    else if o.tag == SubmitSpotImageTag then
      match Field(o, "payload")
      case Some(ImageRecord(p)) => Success(Some(AttachImage(p)))
      case Some(_) => Success(None)
      case None => Failure(TypeError("payload"))
    else if o.tag == RemoveSpotTag then
      match Field(o, "payload")
      case Some(SpotKey(id)) => Success(Some(Remove(id)))
      case _ => Success(None)
    else
      Success(None)
  }

  /** `spotsReducer(state = initialState, action)`. An unknown tag returns the
      state unchanged; only a recognised tag other than `removeSpot` can fault;
      the set of keys shrinks only under `removeSpot`. */
  function SpotsReducer(state: Option<State>, o: ActionObject): (r: Result<State, Fault>)
    ensures o.tag !in Tags ==> r == Success(state.GetOr(Initial))
    ensures r.Failure? <==> Decode(o).Failure?
    ensures r.Failure? ==> o.tag in Tags - {RemoveSpotTag}
    ensures r.Success? && o.tag != RemoveSpotTag ==> state.GetOr(Initial).Keys <= r.value.Keys
    ensures r.Success? ==> r.value.Keys <= state.GetOr(Initial).Keys + UpsertedIds(o)
  {
    var s := state.GetOr(Initial);
    match Decode(o)
    case Failure(f) => Failure(f)
    case Success(None) => Success(s)
    case Success(Some(a)) => Success(Reduce(s, a))
  }

  /** The ids an action object can add to the store: the listed or carried
      spots' ids for the loading actions, none for the others. */
  function UpsertedIds(o: ActionObject): set<int> {
    match Decode(o)
    case Success(Some(LoadAll(xs))) => IdSet(xs)
    case Success(Some(LoadOne(sp))) => {sp.id}
    case Success(Some(Create(sp))) => {sp.id}
    case _ => {}
  }

  /** Every creator's object, fed to the reducer, performs the transition of the
      typed action it was built from. */
  lemma CreatorRoundTrip(s: State, a: Action)
    ensures Encode(a) == ActionObject(TagOf(a), map[Carried(a).0 := Carried(a).1])
    ensures Decode(Encode(a)) == Success(Some(a))
    ensures SpotsReducer(Some(s), Encode(a)) == Success(Reduce(s, a))
  {
  }

  /** The first action the store sees, with no state yet, leaves the empty store. */
  lemma InitialState(o: ActionObject)
    requires o.tag !in Tags
    ensures SpotsReducer(None, o) == Success(map[])
  {
  }

  /** Any object, whatever other properties it has, that carries a recognised tag
      and that tag's field with well-formed data performs that action's transition. */
  lemma ReduceCarried(s: State, o: ActionObject, a: Action)
    requires o.tag == TagOf(a)
    requires Carried(a).0 in o.fields && o.fields[Carried(a).0] == Carried(a).1
    ensures SpotsReducer(Some(s), o) == Success(Reduce(s, a))
  {
  }

  /** A `removeSpot` object without a payload deletes nothing and does not throw:
      `delete state[undefined]` names no spot id. */
  lemma RemoveWithoutPayload(s: State)
    ensures SpotsReducer(Some(s), ActionObject(RemoveSpotTag, map[])) == Success(s)
  {
  }
}

=== FILE: reducer.dfy ===
/** The five transitions of the spots reducer, over a closed action type.
    Each transition builds a new map; nothing is mutated. */
module Reducer {
  import opened Wrappers
  import opened Spots

  /** One constructor per action creator: `loadSpots`, `loadSpotDetails`,
      `loadNewSpot`, `loadSpotImage`, `removeSpot`. */
  datatype Action =
    | LoadAll(spots: seq<Spot>)
    | LoadOne(spot: Spot)
    | Create(spot: Spot)
    | AttachImage(image: ImagePayload)
    | Remove(id: int)

  /** The ids of the spots in a list. */
  function IdSet(xs: seq<Spot>): set<int> {
    set i | 0 <= i < |xs| :: xs[i].id
  }

  /** No spot after position `i` has the id of `xs[i]`: `xs[i]` is the one a
      left-to-right `forEach` writes last under that id. */
  predicate IsLastWithId(xs: seq<Spot>, i: int)
    requires 0 <= i < |xs|
  {
    forall j :: i < j < |xs| ==> xs[j].id != xs[i].id
  }

  /** The position of the last spot in `xs` whose id is `k`. */
  function LastIndexOf(xs: seq<Spot>, k: int): (i: int)
    requires k in IdSet(xs)
    ensures 0 <= i < |xs| && xs[i].id == k && IsLastWithId(xs, i)
    decreases |xs|
  {
    var n := |xs| - 1;
    if xs[n].id == k then n
    else
      assert k in IdSet(xs[..n]) by {
        var j :| 0 <= j < |xs| && xs[j].id == k;
        assert xs[..n][j] == xs[j];
      }
      LastIndexOf(xs[..n], k)
  }

  /** Write one spot under its own id (`next[spot.id] = spot`). */
  function Upsert(s: State, sp: Spot): (r: State)
    ensures r.Keys == s.Keys + {sp.id}
    ensures sp.id in r && r[sp.id] == sp
    ensures forall k :: k in s && k != sp.id ==> r[k] == s[k]
  {
    s[sp.id := sp]
  }

  lemma IdSetCons(xs: seq<Spot>)
    requires xs != []
    ensures IdSet(xs) == {xs[0].id} + IdSet(xs[1..])
  {
  }

  /** `loadSpots`: a shallow copy of the state into which every listed spot is
      written under its id, in list order. */
  function UpsertAll(s: State, xs: seq<Spot>): (r: State)
    ensures r.Keys == s.Keys + IdSet(xs)
    ensures forall k :: k in s && k !in IdSet(xs) ==> r[k] == s[k]
    ensures forall i {:trigger IsLastWithId(xs, i)} ::
              0 <= i < |xs| && IsLastWithId(xs, i) ==> r[xs[i].id] == xs[i]
    decreases |xs|
  {
    if xs == [] then s
    else
      var t := Upsert(s, xs[0]);
      var r := UpsertAll(t, xs[1..]);
      IdSetCons(xs);
      assert forall i :: 1 <= i < |xs| && IsLastWithId(xs, i) ==> IsLastWithId(xs[1..], i - 1) by {
        forall i | 1 <= i < |xs| && IsLastWithId(xs, i) ensures IsLastWithId(xs[1..], i - 1) {
          forall j | i - 1 < j < |xs[1..]| ensures xs[1..][j].id != xs[1..][i - 1].id {
            assert xs[1..][j] == xs[j + 1];
          }
        }
      }
      assert IsLastWithId(xs, 0) ==> xs[0].id !in IdSet(xs[1..]) by {
        if IsLastWithId(xs, 0) {
          forall j | 0 <= j < |xs[1..]| ensures xs[1..][j].id != xs[0].id {
            assert xs[1..][j] == xs[j + 1];
          }
        }
      }
      r
  }

  /** `loadSpotImage`: when `spotId` is truthy and names a spot of the state, that
      spot's image list (the empty list if it has none) gets `{ url, preview }`
      appended; otherwise the state comes back as it was. */
  function Attach(s: State, p: ImagePayload): (r: State)
    ensures r.Keys == s.Keys
    ensures forall k :: k in s && Some(k) != p.spotId ==> r[k] == s[k]
    ensures Truthy(p.spotId) && p.spotId.value in s ==>
              var k := p.spotId.value;
              && r[k].id == s[k].id
              && r[k].attributes == s[k].attributes
              && r[k].images.Some?
              && ImagesOf(r[k]) == ImagesOf(s[k]) + [ImageOf(p)]
    ensures !(Truthy(p.spotId) && p.spotId.value in s) ==> r == s
  {
    if Truthy(p.spotId) && p.spotId.value in s then
      var k := p.spotId.value;
      s[k := s[k].(images := Some(ImagesOf(s[k]) + [Image(p.url, p.preview)]))]
    else
      s
  }

  /** `removeSpot`: a copy of the state without the key `id`. */
  function Delete(s: State, id: int): (r: State)
    ensures r.Keys == s.Keys - {id}
    ensures forall k :: k in r ==> r[k] == s[k]
    ensures id !in s ==> r == s
  {
    s - {id}
  }

  /** The keys an action may write or delete; every other key keeps its value. */
  function Touched(a: Action): set<int> {
    match a
    case LoadAll(xs) => IdSet(xs)
    case LoadOne(sp) => {sp.id}
    case Create(sp) => {sp.id}
    case AttachImage(p) => if Truthy(p.spotId) then {p.spotId.value} else {}
    case Remove(id) => {id}
  }

  /** The reducer's five recognised cases. Only a key in `Touched(a)` can change;
      only `removeSpot` can shrink the set of keys, and it removes exactly its id. */
  function Reduce(s: State, a: Action): (r: State)
    ensures forall k :: k !in Touched(a) ==> (k in r <==> k in s)
    ensures forall k :: k !in Touched(a) && k in s ==> r[k] == s[k]
    ensures !a.Remove? ==> s.Keys <= r.Keys
    ensures a.Remove? ==> r.Keys == s.Keys - {a.id}
  {
    match a
    case LoadAll(xs) => UpsertAll(s, xs)
    case LoadOne(sp) => Upsert(s, sp)
    case Create(sp) => Upsert(s, sp)
    case AttachImage(p) => Attach(s, p)
    case Remove(id) => Delete(s, id)
  }

  /** Applying actions one after another, as the store dispatches them. */
  function ReduceAll(s: State, actions: seq<Action>): State
    decreases |actions|
  {
    if actions == [] then s else ReduceAll(Reduce(s, actions[0]), actions[1..])
  }

  // ---------------------------------------------------------------------------
  // Properties of the transitions

  /** After `loadSpots`, a key listed in the batch holds the LAST spot listed
      with that id, and every other key holds what it held before. */
  lemma LoadAllValues(s: State, xs: seq<Spot>, k: int)
    ensures k in IdSet(xs) ==> UpsertAll(s, xs)[k] == xs[LastIndexOf(xs, k)]
    ensures k !in IdSet(xs) ==> (k in UpsertAll(s, xs) <==> k in s)
    ensures k !in IdSet(xs) && k in s ==> UpsertAll(s, xs)[k] == s[k]
  {
  }

  /** Loading the same batch twice is loading it once. */
  lemma LoadAllIdempotent(s: State, xs: seq<Spot>)
    ensures UpsertAll(UpsertAll(s, xs), xs) == UpsertAll(s, xs)
  {
    var r1 := UpsertAll(s, xs);
    var r2 := UpsertAll(r1, xs);
    forall k | k in r2 ensures r2[k] == r1[k] {
      LoadAllValues(r1, xs, k);
      LoadAllValues(s, xs, k);
    }
  }

  /** Loading `xs` then `ys` is loading their concatenation: the batch is a
      sequence of single upserts. */
  lemma {:induction false} LoadAllAppend(s: State, xs: seq<Spot>, ys: seq<Spot>)
    ensures UpsertAll(s, xs + ys) == UpsertAll(UpsertAll(s, xs), ys)
    decreases |xs|
  {
    if xs == [] {
      assert xs + ys == ys;
    } else {
      assert (xs + ys)[0] == xs[0];
      assert (xs + ys)[1..] == xs[1..] + ys;
      LoadAllAppend(Upsert(s, xs[0]), xs[1..], ys);
    }
  }

  /** A batch of one spot is the single-spot upsert of `loadSpotDetails`. */
  lemma LoadAllSingle(s: State, sp: Spot)
    ensures UpsertAll(s, [sp]) == Reduce(s, LoadOne(sp))
  {
  }

  /** `loadSpotDetails` and `loadNewSpot` write the same state, and applying
      either twice is applying it once. */
  lemma UpsertIdempotent(s: State, sp: Spot)
    ensures Reduce(s, LoadOne(sp)) == Reduce(s, Create(sp))
    ensures Reduce(Reduce(s, LoadOne(sp)), LoadOne(sp)) == Reduce(s, LoadOne(sp))
    ensures Reduce(Reduce(s, Create(sp)), Create(sp)) == Reduce(s, Create(sp))
  {
  }

  /** Two attaches to the same present spot keep their order: the list ends
      with the first image, then the second. */
  lemma AttachOrder(s: State, k: int, a: ImagePayload, b: ImagePayload)
    requires a.spotId == Some(k) && b.spotId == Some(k)
    requires k != 0 && k in s
    ensures var r := Reduce(Reduce(s, AttachImage(a)), AttachImage(b));
            k in r && ImagesOf(r[k]) == ImagesOf(s[k]) + [ImageOf(a), ImageOf(b)]
  {
  }

  /** A spot stored under id 0 can never receive an image: 0 is falsy. */
  lemma AttachToZeroIsIdentity(s: State, p: ImagePayload)
    requires p.spotId == Some(0)
    ensures Reduce(s, AttachImage(p)) == s
  {
  }

  /** Every spot is stored under its own id. */
  predicate KeyedById(s: State) {
    forall k :: k in s ==> s[k].id == k
  }

  /** Every transition keeps each spot under its own id: loads write a spot
      under its id, an attach keeps the spot's id, a removal keeps the rest. */
  lemma ReduceKeepsKeyedById(s: State, a: Action)
    requires KeyedById(s)
    ensures KeyedById(Reduce(s, a))
  {
    if a.LoadAll? {
      var r := Reduce(s, a);
      forall k | k in r ensures r[k].id == k {
        LoadAllValues(s, a.spots, k);
      }
    }
  }

  /** Loading spots 1 and 2 into the empty store and removing spot 1 leaves
      exactly spot 2. */
  lemma LoadThenRemoveScenario(sp1: Spot, sp2: Spot)
    requires sp1.id == 1 && sp2.id == 2
    ensures var r := ReduceAll(Initial, [LoadAll([sp1, sp2]), Remove(1)]);
            r.Keys == {2} && r[2] == sp2
  {
    var xs := [sp1, sp2];
    assert IdSet(xs) == {1, 2} by {
      assert xs[0].id == 1 && xs[1].id == 2;
    }
    var r1 := Reduce(Initial, LoadAll(xs));
    assert IsLastWithId(xs, 1);
    assert r1[2] == sp2;
    var acts := [LoadAll(xs), Remove(1)];
    assert acts[1..] == [Remove(1)];
    assert [Remove(1)][1..] == [];
    assert ReduceAll(Initial, acts) == ReduceAll(r1, [Remove(1)]);
    assert ReduceAll(r1, [Remove(1)]) == ReduceAll(Delete(r1, 1), []);
  }
}

=== FILE: spots.dfy ===
/** The entities held by the client-side spots store. */
module Spots {
  import opened Wrappers

  /** One image of a listing: the `{ url, preview }` pair the reducer appends. */
  datatype Image = Image(url: string, preview: bool)

  /** A listing as the server sends it. `attributes` stands for every listing column
      the reducer never looks at (address, city, price, ...); `images` is `None` while
      the object has no `images` property. */
  datatype Spot = Spot(id: int, attributes: map<string, string>, images: Option<seq<Image>>)

  /** The body of a created image as it is dispatched: the id of the spot it belongs
      to (`None` when the body carries no `spotId`), its url and its preview flag. */
  datatype ImagePayload = ImagePayload(spotId: Option<int>, url: string, preview: bool)

  /** The store: spot id to spot. JavaScript object keys are strings; ids are modelled
      as integers and key coercion is not modelled. */
  type State = map<int, Spot>

  /** The reducer's `initialState`, an empty object. */
  const Initial: State := map[]

  /** A spot's image list, the empty list when it has none (`spot.images || []`). */
  function ImagesOf(sp: Spot): seq<Image> {
    sp.images.GetOr([])
  }

  /** JavaScript truthiness of a numeric `spotId`: `undefined` and `0` are falsy. */
  predicate Truthy(id: Option<int>) {
    id.Some? && id.value != 0
  }

  /** The image an image payload describes. */
  function ImageOf(p: ImagePayload): Image {
    Image(p.url, p.preview)
  }
}

=== FILE: thunks.dfy ===
/** The asynchronous thunks, with the network taken out: each receives the
    outcome of its request as a parameter and yields the action objects it
    dispatches together with the value its promise resolves to. */
module Thunks {
  import opened Wrappers
  import opened Spots
  import opened Reducer
  import opened Actions

  /** How a request ends: `res.ok` with the parsed body, a non-ok status with the
      parsed error body, or an exception (the fetch rejected or a body did not
      parse) caught by the thunk. Error bodies are kept as opaque text. */
  datatype Response<+T> = Ok(body: T) | NotOk(error: string) | Threw(error: string)

  /** How the thunk's promise settles: resolved to a value, to an error value or
      to `undefined`, or rejected by an exception thrown outside its `try`. */
  datatype Returned<+T> =
    | Value(value: T)
    | ErrorValue(error: string)
    | Undefined
    | Rejected(error: string)

  datatype Run<+T> = Run(dispatched: seq<ActionObject>, returned: Returned<T>)

  /** The objects the creators build for a sequence of typed actions. */
  function EncodeAll(actions: seq<Action>): (os: seq<ActionObject>)
    ensures |os| == |actions|
    decreases |actions|
  {
    if actions == [] then [] else [Encode(actions[0])] + EncodeAll(actions[1..])
  }

  /** The store's state after dispatching `os` in order, or the first fault. */
  function Commit(s: State, os: seq<ActionObject>): Result<State, Fault>
    decreases |os|
  {
    if os == [] then Success(s)
    else
      match SpotsReducer(Some(s), os[0])
      case Failure(f) => Failure(f)
      case Success(t) => Commit(t, os[1..])
  }

  /** `getAllSpots()`: the body's `Spots` list is dispatched and returned. */
  function GetAllSpots(resp: Response<seq<Spot>>): (r: Run<seq<Spot>>)
    ensures |r.dispatched| == if resp.Ok? then 1 else 0
    ensures resp.Ok? ==> r.returned == Value(resp.body)
    ensures resp.NotOk? ==> r.returned == Undefined
    ensures resp.Threw? ==> r.returned == ErrorValue(resp.error)
  {
    match resp
    case Ok(spots) => Run([LoadSpots(spots)], Value(spots))
    case NotOk(_) => Run([], Undefined)
    case Threw(e) => Run([], ErrorValue(e))
  }

  /** `getASpot(spotId)`: the fetched spot is dispatched and returned. */
  function GetASpot(resp: Response<Spot>): (r: Run<Spot>)
    ensures |r.dispatched| == if resp.Ok? then 1 else 0
    ensures resp.Ok? ==> r.returned == Value(resp.body)
    ensures !resp.Ok? ==> r.returned == ErrorValue(resp.error)
  {
    match resp
    case Ok(spot) => Run([LoadSpotDetails(spot)], Value(spot))
    case NotOk(e) => Run([], ErrorValue(e))
    case Threw(e) => Run([], ErrorValue(e))
  }

  /** `createSpot(form)`: the created spot the server answers with is
      dispatched and returned. */
  function CreateSpot(resp: Response<Spot>): (r: Run<Spot>)
    ensures |r.dispatched| == if resp.Ok? then 1 else 0
    ensures resp.Ok? ==> r.returned == Value(resp.body)
    ensures !resp.Ok? ==> r.returned == ErrorValue(resp.error)
  {
    match resp
    case Ok(spot) => Run([LoadNewSpot(spot)], Value(spot))
    case NotOk(e) => Run([], ErrorValue(e))
    case Threw(e) => Run([], ErrorValue(e))
  }

  /** `createSpotImage(imagePayload)`. The argument is destructured before the
      `try`, so a missing (`null` or `undefined`) argument rejects the promise
      with a `TypeError` before any request is sent. Otherwise what is
      dispatched is the image record the SERVER answers with, not the request's
      payload. */
  function CreateSpotImage(request: Option<ImagePayload>, resp: Response<ImagePayload>)
    : (r: Run<ImagePayload>)
    ensures |r.dispatched| == if request.Some? && resp.Ok? then 1 else 0
    ensures request.None? ==> r.returned.Rejected?
    ensures request.Some? && resp.Ok? ==> r.returned == Value(resp.body)
    ensures request.Some? && !resp.Ok? ==> r.returned == ErrorValue(resp.error)
  {
    if request.None? then Run([], Rejected("TypeError: cannot destructure imagePayload"))
    else
      match resp
      case Ok(image) => Run([LoadSpotImage(image)], Value(image))
      case NotOk(e) => Run([], ErrorValue(e))
      case Threw(e) => Run([], ErrorValue(e))
  }

  /** `deleteSpot(spotId)`: on success the requested id is dispatched for removal;
      the promise carries a value only when an exception was caught. */
  function DeleteSpot(spotId: int, resp: Response<()>): (r: Run<()>)
    ensures |r.dispatched| == if resp.Ok? then 1 else 0
    ensures !resp.Threw? ==> r.returned == Undefined
    ensures resp.Threw? ==> r.returned == ErrorValue(resp.error)
  {
    match resp
    case Ok(_) => Run([RemoveSpot(spotId)], Undefined)
    case NotOk(_) => Run([], Undefined)
    case Threw(e) => Run([], ErrorValue(e))
  }

  // ---------------------------------------------------------------------------
  // Effect of each thunk on the store

  /** Encoding typed actions with their creators and dispatching the objects in
      order is reducing the typed actions in order; nothing faults. */
  lemma {:induction false} CommitEncoded(s: State, actions: seq<Action>)
    ensures Commit(s, EncodeAll(actions)) == Success(ReduceAll(s, actions))
    decreases |actions|
  {
    if actions != [] {
      CreatorRoundTrip(s, actions[0]);
      assert EncodeAll(actions)[1..] == EncodeAll(actions[1..]);
      CommitEncoded(Reduce(s, actions[0]), actions[1..]);
    }
  }

  /** A failed list request leaves the store as it was; a successful one upserts
      every listed spot. */
  lemma GetAllSpotsEffect(s: State, resp: Response<seq<Spot>>)
    ensures Commit(s, GetAllSpots(resp).dispatched)
            == if resp.Ok? then Success(UpsertAll(s, resp.body)) else Success(s)
  {
  }

  /** A failed detail request leaves the store as it was; a successful one
      writes the fetched spot under its id. */
  lemma GetASpotEffect(s: State, resp: Response<Spot>)
    ensures Commit(s, GetASpot(resp).dispatched)
            == if resp.Ok? then Success(s[resp.body.id := resp.body]) else Success(s)
  {
  }

  /** A failed creation leaves the store as it was; a successful one writes the
      created spot under its id. */
  lemma CreateSpotEffect(s: State, resp: Response<Spot>)
    ensures Commit(s, CreateSpot(resp).dispatched)
            == if resp.Ok? then Success(s[resp.body.id := resp.body]) else Success(s)
  {
  }

  /** A missing argument or a failed upload leaves the store as it was; so does a
      successful upload whose answer carries no truthy `spotId` naming a loaded spot. */
  lemma CreateSpotImageEffect(s: State, request: Option<ImagePayload>, resp: Response<ImagePayload>)
    ensures request.None? || !resp.Ok? ==>
              Commit(s, CreateSpotImage(request, resp).dispatched) == Success(s)
    ensures request.Some? && resp.Ok? ==>
              Commit(s, CreateSpotImage(request, resp).dispatched) == Success(Attach(s, resp.body))
    ensures (request.Some? && resp.Ok?
             && !(Truthy(resp.body.spotId) && resp.body.spotId.value in s)) ==>
              Commit(s, CreateSpotImage(request, resp).dispatched) == Success(s)
  {
  }

  /** A failed delete leaves the store as it was; a successful one removes
      exactly the requested id. */
  lemma DeleteSpotEffect(s: State, spotId: int, resp: Response<()>)
    ensures Commit(s, DeleteSpot(spotId, resp).dispatched)
            == if resp.Ok? then Success(s - {spotId}) else Success(s)
  {
  }
}

=== FILE: wrappers.dfy ===
/** Wrappers used across the model: an optional value
    (JavaScript's `undefined` becomes `None`) and a result that is either a
    value or the error the JavaScript code would raise or return. */
module Wrappers {

  datatype Option<+T> = None | Some(value: T) {

    /** The wrapped value, or `default` when there is none (JavaScript's `x || default`
        for a value that is either an object or `undefined`). */
    function GetOr(default: T): T {
      match this
      case Some(v) => v
      case None => default
    }
  }

  datatype Result<+R, +E> = Success(value: R) | Failure(error: E)
}
